=== FILE: README.md ===
# Quota ledger, slugs and e-mail verification of a chat backend, in Dafny

This project models the decision logic of a FastAPI chat backend. Users send
prompts to third-party language models, save and publish chat transcripts,
and are held to a per-user daily usage quota.

The model covers five parts:

- **The daily usage ledger.** It holds one row per `(user, day)` with a token
  counter and a message counter. It is a map keyed by `(user, day)`, so the
  schema's uniqueness constraint holds for every ledger value.
- **The quota guard of `submit_chat`.** The route looks up the model, then
  runs an unlocked pre-check that rejects when a counter is already strictly
  above its limit. It then calls the provider, and only after the provider
  answers does it commit the provider's `total_tokens` and one message. The
  provider's answer is an input: either a completion or a failure. The route
  records its steps as a trace of events, so the order of the steps can be
  stated as a property.
- **Slug generation.** `slugify` turns a title into a URL-safe slug.
  `unique_slug` returns the first of `base`, `base-1`, `base-2`, … that no
  chat uses yet.
- **The e-mail verification token lifecycle.** This covers the zero-padded
  six-digit codes, re-issuing a code (which invalidates the user's earlier
  unused codes), and the accept/reject rules of `verify_email`.
- **The visibility rules of `save_chat` and `get_saved_chat`.** A chat is
  anonymous, or has a publication time, only when it is public. A private
  chat is shown to its owner only.

"Today", the current time, the daily limits, the random draws of the code
generator and the provider's reply are all parameters.

Each request runs in one database session, and that session is closed
without a commit when the route raises. So in the model, a failed submission
(unknown model, quota exceeded or provider error) leaves the committed ledger
exactly as it was. That includes the zeroed row that the pre-check flushed.

The modules follow the program's structure:

| file | module | models |
|---|---|---|
| Wrappers.dfy | `Wrappers` | `Option`, `Result`, `Outcome` |
| Decimal.dfy | `Decimal` | `str(n)` and the `0{w}d` format, with their inverse |
| Records.dfy | `Records` | record shapes, defaults and keys of `app/model_schema/models.py` |
| RateLimits.dfy | `RateLimits` | `_get_or_create_daily_usage`, `check_rate_limits`, `update_rate_limits` |
| Submission.dfy | `Submission` | `submit_chat` and its prompt assembly |
| Slugs.dfy | `Slugs` | `slugify`, `unique_slug` |
| Verification.dfy | `Verification` | `generate_verification_code`, `save_verification_token`, `verify_email` |
| Chats.dfy | `Chats` | `save_chat`, `get_saved_chat` |

Four details of the code shape the model:

- **Prompt assembly.** `submit_chat` tests whether the *joined* sources text
  is empty, not whether the list is empty (app/routes.py:339-340). So `[""]`
  leaves the prompt unchanged, while `["", ""]` appends the header and a
  blank line. `Submission.PromptUnchangedIff` states the exact condition.
- **Creating a ledger row.** `_get_or_create_daily_usage` inserts a zeroed
  row when none exists and has no retry on a uniqueness violation
  (app/routes.py:133-136). The model makes every step atomic, so two
  requests never create the same row at once.
- **Committing usage.** `update_rate_limits` re-queries the row with a lock
  in the same session that the pre-check loaded it in, and the query does
  not ask for a refresh (app/routes.py:130-132, 155-158). The session holds
  an unmodified loaded object only through a weak reference, and nothing in
  the route keeps the pre-check's object alive. So normally the locked query
  loads the row afresh, and the commit is `RateLimits.UpdateRateLimits`,
  which the rest of the model uses. `RateLimits.CommitFromSession` takes
  whether the session still holds the pre-check's object as an input. If it
  does, the commit writes the counters the pre-check saw plus the deltas,
  and a request that pre-checked before another request committed
  overwrites that commit. `RateLimits.InterleavedCommitsLoseUpdate` states
  this hazard, and `RateLimits.InterleavedCommitsAccumulate` states the
  normal case, where both deltas land.
- **The date.** The pre-check and the commit each call `date.today()`
  (app/routes.py:127, reached from 141 and 156). `Submission.SubmitChat`
  takes the two days separately. A provider call that spans midnight is
  checked against one day's row and charged to the next day's
  (`Submission.MidnightSubmission`).

## Model

| member | source | states |
|---|---|---|
| Records.NewUser | app/model_schema/models.py:26 | a newly registered user is not verified |
| Records.NewToken | app/model_schema/models.py:78 | a newly issued verification token is unused |
| Records.RoleCodeRoundTrip | app/model_schema/models.py:144 | roles are stored as 0 (user) and 1 (model), and the encoding is a bijection onto {0, 1} |
| Records.SlugsOf | app/routes.py:120 | the set of slugs in use holds exactly the slugs of the chats in the table |
| RateLimits.GetOrCreateDailyUsage | app/routes.py:126-137 | returns the stored row unchanged, or inserts exactly one zeroed row for (user, today); no other row changes |
| RateLimits.GetOrCreateTwice | app/routes.py:126-137 | a second get-or-create returns the same counters and changes nothing |
| RateLimits.CheckRateLimits | app/routes.py:140-152 | rejects exactly when tokens > token limit or messages > message limit; equality passes; the token error wins when both are exceeded; existing counters are never changed |
| RateLimits.FirstCheckOfTheDay | app/routes.py:140-152 | a user's first check of a day creates a zeroed row and passes (for non-negative limits) |
| RateLimits.UpdateRateLimits | app/routes.py:155-159 | adds tokens_used and message_increment to today's row (which is zeroed if new); every other row is unchanged |
| RateLimits.UpdateMonotone | app/routes.py:155-159 | with non-negative deltas no counter of any row decreases |
| RateLimits.UpdatesAccumulate | app/routes.py:155-159 | two commits made one after the other for the same user and day add up to one commit of the summed deltas |
| RateLimits.CommitIsolated | app/routes.py:155-159 | a commit never changes the row of another user or another day |
| RateLimits.UpdateAfterCheck | app/routes.py:141-156 | the zeroed row the pre-check may insert does not change what the commit produces |
| RateLimits.OvershootScenario | app/routes.py:143-158 | with a 100-token limit, 95 tokens pass, a 10-token commit gives 105, and the next check rejects with the token error |
| RateLimits.CommitOvershootBound | app/routes.py:143-157 | after a passing check the commit leaves the tokens at most the limit plus the request's tokens, and exactly there when the counter stood at the limit |
| RateLimits.CommitFromSession | app/routes.py:126-158 | the commit through the session, given whether the session still holds the object its pre-check loaded: if it does, the row becomes that object's counters plus the deltas (the query does not refresh it); if not, the locked row is read and the commit is UpdateRateLimits; no other row changes |
| RateLimits.SessionCommitWhenFresh | app/routes.py:126-158 | when no other commit came in between, the commit gives the same ledger as UpdateRateLimits whether or not the session still holds the object |
| RateLimits.InterleavedCommitsLoseUpdate | app/routes.py:126-158 | a hazard, not the normal case: when two requests both pre-check before either commits and the second one's session still holds its pre-check object, the row ends at the pre-check counters plus the second request's delta only, not plus both |
| RateLimits.LostUpdateExample | app/routes.py:126-158 | the same hazard on numbers: at 95 tokens and 3 messages both requests pass; if the second session still holds its object, commits of 10 and then 20 tokens leave 115 tokens and 4 messages, not 125 and 5 |
| RateLimits.InterleavedCommitsAccumulate | app/routes.py:126-158 | the same interleaving when the second session no longer holds its pre-check object, so the locked query loads what the first commit left: both requests' tokens and one message each land |
| Submission.Join | app/routes.py:339 | joining no parts gives the empty string and one part gives that part; with two or more the result starts with the first part and the separator |
| Submission.JoinEmptyIff | app/routes.py:339 | a join with a non-empty separator is empty exactly when there is no part or one empty part |
| Submission.CombinePrompt | app/routes.py:339-340 | the prompt is extended by "\n\nSOURCES:\n" and the blank-line-joined sources exactly when that joined text is non-empty; otherwise it is sent unchanged |
| Submission.PromptUnchangedIff | app/routes.py:339-340 | the prompt is unchanged exactly for no sources or one empty source |
| Submission.SubmitChat | app/routes.py:336-354 | an unknown model fails before any ledger access or provider call; the provider is called only right after a passing check, with the assembled prompt; a provider failure after a passing check is returned as it is; the commit follows the provider's answer and charges its total_tokens and one message to the row of the day the commit runs, after the pre-check's row for its own day; every failure leaves the ledger unchanged; the response carries the provider's text (empty if absent) and token counts |
| Submission.MidnightSubmission | app/routes.py:127-158 | when the pre-check runs on day D and the commit on D + 1, a request with no rows yet leaves a zeroed row for D and the charge on a new row for D + 1 |
| Submission.SubmissionCounts | app/routes.py:343-347 | at most one provider call and at most one commit; a commit happens exactly when the request succeeds |
| Submission.SuccessiveSubmissions | app/routes.py:343-347 | two successful submissions on one day add both token totals and two messages |
| Submission.QuotaScenario | app/routes.py:343-347 | at 95 of 100 tokens a 10-token answer succeeds and takes the user to 105; the next submission is rejected without calling the provider |
| Slugs.Lower | app/routes.py:113 | `lower()` on ASCII: same length, every character lower-cased in place, no capital left, and a string without capitals is unchanged |
| Slugs.ReplaceRuns | app/routes.py:113 | after the substitution only letters, digits and dashes remain |
| Slugs.ReplaceRunsKeepsAlnums | app/routes.py:113 | replacing each run of disallowed characters by one dash keeps every letter and digit, in order |
| Slugs.ReplaceRunsSlugChars | app/routes.py:113 | on lower-cased input the substitution yields only lower-case letters, digits and dashes |
| Slugs.ReplaceRunsKeepsAllowed | app/routes.py:113 | a string of letters, digits and dashes passes the substitution unchanged |
| Slugs.ReplaceRunsAtRun | app/routes.py:113 | a maximal run of disallowed characters at the front becomes one dash, followed by the substitution of what comes after it |
| Slugs.ReplaceRunsSplit | app/routes.py:113 | a maximal run of disallowed characters becomes exactly one dash in its place, and the text on each side of it is substituted on its own |
| Slugs.StripLeading | app/routes.py:113 | stripping dashes at the front leaves a suffix that does not start with a dash, and leaves a string that does not start with one unchanged |
| Slugs.StripTrailing | app/routes.py:113 | stripping dashes at the end leaves a prefix that does not end with a dash, keeps slug characters, and leaves a string that does not end with one unchanged |
| Slugs.StripLeadingKeepsAlnums | app/routes.py:113 | stripping dashes at the front keeps every letter and digit |
| Slugs.StripTrailingKeepsAlnums | app/routes.py:113 | stripping dashes at the end keeps every letter and digit |
| Slugs.Slugify | app/routes.py:112-114 | the slug is non-empty, uses only [a-z0-9-], and has no dash at either end |
| Slugs.SlugifyKeepsAlnums | app/routes.py:112-114 | the slug keeps every letter and digit of the lower-cased title, in order; a title without any falls back to "chat" |
| Slugs.SlugifyFixesSlugs | app/routes.py:112-114 | a well-formed slug is its own slug |
| Slugs.SlugifyIdempotent | app/routes.py:112-114 | slugifying twice is slugifying once |
| Slugs.SlugifyExample | app/routes.py:112-114 | "Hello, World!" becomes "hello-world" |
| Slugs.Candidate | app/routes.py:118-121 | the k-th name tried is base for k = 0, and otherwise starts with base and a dash followed by at least one more character |
| Slugs.CandidatesDistinct | app/routes.py:118-122 | the names unique_slug tries are pairwise distinct |
| Slugs.UniqueSlug | app/routes.py:117-123 | returns the first candidate (base, base-1, base-2, ...) that is free: base if it is free, otherwise base-k for the least k >= 1 that is free; the result is never taken |
| Decimal.NatToStr | app/routes.py:121 | `str(n)` of a natural is a non-empty string of decimal digits, with at least two digits from 10 on, and without leading zeros: it starts with `0` only for n = 0, which renders as "0" |
| Decimal.ParseNatToStr | app/routes.py:121 | `str(n)` reads back as n |
| Decimal.PadDecimal | app/routes.py:70 | the `0{width}d` format: decimal digits only, as long as the wider of width and `str(n)`, ending in `str(n)` with zeros in front |
| Decimal.PadDecimalRoundTrip | app/routes.py:70 | the zero-padded decimal rendering reads back as the number rendered |
| Decimal.NatToStrInjective | app/routes.py:121 | distinct suffixes render to distinct strings |
| Verification.GenerateVerificationCode | app/routes.py:69-70 | a draw below 10^length becomes exactly length decimal digits that read back as the draw; a length of 0 gives "0" |
| Verification.CodesDistinct | app/routes.py:69-70 | distinct draws give distinct codes |
| Verification.CodeOf | app/routes.py:69-70 | with the default length, every draw becomes a code of six decimal digits |
| Verification.FirstFreeCode | app/routes.py:77-84 | the retry loop stops at the first generated code not in use: that code is not in the store and every earlier one is |
| Verification.InvalidateUnused | app/routes.py:75 | every unused token of the user becomes used; every other token is unchanged |
| Verification.SaveVerificationToken | app/routes.py:73-94 | the earlier unused tokens of the user are invalidated; the new code was not in use, is the first free one among the generated codes, and has six digits; it is stored unused with expiry now + expires_minutes; nothing else changes |
| Verification.OnlyNewestCodeLive | app/routes.py:75-91 | after re-issuing, the new code is the user's only unused token |
| Verification.ReissueIsolated | app/routes.py:75 | re-issuing never touches another user's tokens |
| Verification.VerifyEmail | app/routes.py:277-295 | an unknown or used code is invalid; a code whose expiry is strictly before now has expired; a token without a user is not found; otherwise the user becomes verified and the token used |
| Verification.VerifyOnlyOnce | app/routes.py:283-293 | a code that verified once is invalid afterwards |
| Verification.IssuedCodeVerifies | app/routes.py:283-293 | a freshly issued code verifies its user up to and including its expiry instant, and is rejected as expired after it |
| Verification.ReissueInvalidatesEarlierCodes | app/routes.py:75 | after a new code is issued, every earlier code of the same user is rejected as invalid |
| Verification.DefaultCodeLivesOneDay | app/routes.py:73-90 | with the default expiry of 60 * 24 minutes a code verifies until 86400 seconds after issue, inclusive, and has expired one second later |
| Chats.StoredMessage | app/routes.py:385-396 | a stored message keeps the payload's role, content and highlights in order; a missing highlight list stores none |
| Chats.NewChat | app/routes.py:371-383 | anonymity and the publication time take effect only for a public chat; the chat starts with zero likes |
| Chats.SaveChat | app/routes.py:364-406 | an unknown model is rejected; otherwise the chat is appended under the first free candidate slug built from the title (every earlier candidate is in use), keeping slugs unique, and its owner can read it back by that slug |
| Chats.AppendKeepsSlugsUnique | app/model_schema/models.py:94 | appending a chat under an unused slug keeps slugs unique |
| Chats.FindBySlug | app/routes.py:439-446 | finds the first chat with the slug, or none exactly when no chat uses it |
| Chats.FindAppended | app/routes.py:439-446 | a chat appended under a fresh slug is found by that slug |
| Chats.GetSavedChat | app/routes.py:446-453 | an unknown slug is not found; a returned chat has that slug and is public or owned by the viewer; a refused chat is private and not the viewer's |
| Chats.VisibilityRules | app/routes.py:446-453 | with unique slugs, the owner always sees the chat, anyone sees it when it is public, and anyone else is refused while it is private |

## Left out

- Row locking, transactions across processes and concurrency: every step of the model is atomic. Interleaving is shown only by two requests that both pre-check before either commits (`RateLimits.InterleavedCommitsLoseUpdate`, `RateLimits.InterleavedCommitsAccumulate`). Two requests creating the same day's row at once, where the second insert would violate the unique key, are not modelled.
- RateLimits.CommitFromSession: whether the session still holds the pre-check's object when the commit runs depends on garbage collection and is an input. The model does not decide it.
- `call_openrouter` and the OpenAI client: these are network I/O. The provider's reply, or its failure, is an input. The model registry lookup it repeats is the same map that `submit_chat` checks.
- Authentication (JWT encoding and decoding, bcrypt, `get_current_user*`): these are library wrappers. The authenticated user is a given id, or an optional id for `get_saved_chat`.
- `send_verification_email`: SMTP delivery is I/O.
- `secrets.randbelow`: the codes the generator yields for successive random draws are an input sequence (each one is `Verification.CodeOf` of a draw). `SaveVerificationToken` requires that some code in it is free. The source never deletes a verification token (app/routes.py:75 only marks tokens used), so once all 10^6 six-digit codes have been issued, the retry loop at app/routes.py:77-84 never ends; that requires excludes exactly this case.
- `date.today()` and `datetime.now()`: these are parameters, one per call site. Times are integers in seconds, and a day is an integer. Comparing a timezone-aware expiry with a naive `datetime.now()` depends on the database driver and is not modelled.
- `config.py`: the daily limits are parameters.
- Integer width: the database's integer columns are unbounded integers here. Counters cannot overflow in the model.
- Slugs.Slugify: `str.lower()` is modelled on ASCII letters only. Unicode case mapping is left out, so any non-ASCII character counts as disallowed.
- Chats.SaveChat: the `IntegrityError` branch is not modelled. With unique slugs and sequential requests, no constraint the model represents can fail. The 255-character column limit on slugs is not enforced.
- Chats.GetSavedChat: when slugs are not unique, the model returns the first match in table order. The SQL query leaves that order unspecified. `Chats.VisibilityRules` gives the exact behaviour under unique slugs.
- Chat ids: the model assumes the chat at index `i` of the table has id `i + 1` (`Records.ChatIdAt`). The ids come from an auto-increment key. A key sequence that skips a value after a rolled-back insert is not represented.
- `ChatStar`: no route in the modelled file creates or reads stars. Its `(user_id, chat_id)` uniqueness would be a set of pairs and is not modelled.
- The `signup` and `login` routes, `publish_from_saved`, the page routes and templates: these are not part of the modelled core. Only the defaults they rely on (`Records.NewUser`, `Records.NewToken`) are modelled.
- The Pydantic request and response classes: these appear only as the plain datatypes the routes use. The role range check is replaced by the two-valued `Role` type.

=== FILE: Chats.dfy ===
/** Saving and reading chats: the visibility rules of the `save_chat` route
    (anonymity and the publication time only take effect for a public chat)
    and of `get_saved_chat` (a private chat is shown to its owner only). */
module Chats {
  import opened Wrappers
  import opened Records
  import opened Slugs

  datatype MessagePayload = MessagePayload(role: Role, content: string, highlights: Option<seq<Highlight>>)

  datatype ChatHistory = ChatHistory(modelId: int, messages: seq<MessagePayload>)

  datatype ChatSaveRequest = ChatSaveRequest(title: string, anonymous: bool, history: ChatHistory)

  datatype SaveError = UnknownModel

  datatype Saved = Saved(chats: ChatTable, chatId: ChatId)

  /** A stored message: the payload's role and content, and its highlights in
      order (a missing list stores none). */
  function StoredMessage(p: MessagePayload): (m: Message)
    ensures m.role == p.role && m.content == p.content
    ensures p.highlights.Some? ==> m.highlights == p.highlights.value
    ensures p.highlights.None? ==> m.highlights == []
  {
    Message(p.role, p.content, if p.highlights.Some? then p.highlights.value else [])
  }

  /** `save_chat` for the authenticated `owner` at time `now`: reject an
      unknown model, derive a slug no chat uses yet from the title, and append
      the chat with its messages. */
  method SaveChat(chats: ChatTable, models: ModelRegistry, owner: UserId, payload: ChatSaveRequest,
                  publish: bool, now: Instant) returns (r: Result<Saved, SaveError>)
    ensures r.Err? <==> payload.history.modelId !in models
    ensures r.Ok? ==>
              && |r.value.chats| == |chats| + 1
              && r.value.chats[..|chats|] == chats
              && r.value.chatId == ChatIdAt(|chats|)
              && var chat := r.value.chats[|chats|];
              && chat.ownerId == owner
              && chat.title == payload.title
              && chat.modelId == payload.history.modelId
              && chat.slug !in SlugsOf(chats)
              && (Slugify(payload.title) !in SlugsOf(chats) ==> chat.slug == Slugify(payload.title))
              && chat.isPublic == publish
              && chat.anonymous == (publish && payload.anonymous)
              && chat.publishedAt == (if publish then Some(now) else None)
              && chat.likes == 0
              && |chat.messages| == |payload.history.messages|
              && (forall i :: 0 <= i < |chat.messages| ==> chat.messages[i] == StoredMessage(payload.history.messages[i]))
    ensures r.Ok? ==>
              exists k: nat :: && r.value.chats[|chats|].slug == Candidate(Slugify(payload.title), k)
                               && forall j :: 0 <= j < k ==> Candidate(Slugify(payload.title), j) in SlugsOf(chats)
    ensures r.Ok? && SlugsUnique(chats) ==> SlugsUnique(r.value.chats)
    ensures r.Ok? ==> GetSavedChat(r.value.chats, r.value.chats[|chats|].slug, Some(owner)) == Ok(r.value.chats[|chats|])
  {
    if payload.history.modelId !in models {
      return Err(UnknownModel);
    }
    var slug := UniqueSlug(Slugify(payload.title), SlugsOf(chats));
    var chat := NewChat(owner, payload, slug, publish, now);
    var table := chats + [chat];
    assert table[..|chats|] == chats;
    AppendKeepsSlugsUnique(chats, chat);
    FindAppended(chats, chat);
    return Ok(Saved(table, ChatIdAt(|chats|)));
  }

  /** The chat row `save_chat` builds: anonymity and the publication time are
      kept only for a public chat; a private chat is never anonymous and has
      no publication time. */
  function NewChat(owner: UserId, payload: ChatSaveRequest, slug: string, publish: bool, now: Instant): (chat: Chat)
    ensures chat.ownerId == owner && chat.title == payload.title && chat.slug == slug
    ensures chat.modelId == payload.history.modelId
    ensures chat.isPublic == publish
    ensures chat.anonymous <==> publish && payload.anonymous
    ensures chat.publishedAt.Some? <==> publish
    ensures publish ==> chat.publishedAt == Some(now)
    ensures chat.likes == 0
    ensures |chat.messages| == |payload.history.messages|
    ensures forall i :: 0 <= i < |chat.messages| ==> chat.messages[i] == StoredMessage(payload.history.messages[i])
  {
    var isPublic := publish;
    var anonymous := if isPublic then payload.anonymous else false;
    var publishedAt := if isPublic then Some(now) else None;
    var messages := seq(|payload.history.messages|, i requires 0 <= i < |payload.history.messages| =>
                          StoredMessage(payload.history.messages[i]));
    Chat(owner, payload.title, payload.history.modelId, slug, isPublic, anonymous, 0, publishedAt, messages)
  }

  lemma AppendKeepsSlugsUnique(chats: ChatTable, chat: Chat)
    requires chat.slug !in SlugsOf(chats)
    ensures SlugsUnique(chats) ==> SlugsUnique(chats + [chat])
  {
  }

  /** The index of the first chat with the given slug, as the query's
      `.first()` returns it. */
  function FindBySlug(chats: ChatTable, slug: string): (r: Option<nat>)
    ensures r.None? <==> slug !in SlugsOf(chats)
    ensures r.Some? ==> r.value < |chats| && chats[r.value].slug == slug
                        && forall j :: 0 <= j < r.value ==> chats[j].slug != slug
  {
    if chats == [] then None
    else if chats[0].slug == slug then Some(0)
    else
      match FindBySlug(chats[1..], slug)
      case None => None
      case Some(i) => Some(i + 1)
  }

  /** A chat appended under a slug no earlier chat uses is found by that slug. */
  lemma FindAppended(chats: ChatTable, chat: Chat)
    requires chat.slug !in SlugsOf(chats)
    ensures FindBySlug(chats + [chat], chat.slug) == Some(|chats|)
  {
    var table := chats + [chat];
    var found := FindBySlug(table, chat.slug);
    assert table[|chats|].slug == chat.slug;
    assert found.Some?;
  }

  datatype ViewError = ChatNotFound | ChatIsPrivate

  /** `get_saved_chat`: look the chat up by slug, and refuse a private chat to
      anyone but its owner (an anonymous viewer included). */
  function GetSavedChat(chats: ChatTable, slug: string, viewer: Option<UserId>): (r: Result<Chat, ViewError>)
    ensures r == Err(ChatNotFound) <==> slug !in SlugsOf(chats)
    ensures r.Ok? ==> r.value in chats && r.value.slug == slug
    ensures r.Ok? ==> r.value.isPublic || viewer == Some(r.value.ownerId)
    ensures r == Err(ChatIsPrivate) ==>
              exists i :: 0 <= i < |chats| && chats[i].slug == slug && !chats[i].isPublic
                          && (viewer.None? || viewer.value != chats[i].ownerId)
  {
    match FindBySlug(chats, slug)
    case None => Err(ChatNotFound)
    case Some(i) =>
      var chat := chats[i];
      if !chat.isPublic && (viewer.None? || chat.ownerId != viewer.value) then Err(ChatIsPrivate)
      else Ok(chat)
  }

  /** With unique slugs a slug names exactly one chat: its owner always sees
      it, anyone sees it once it is public, and anyone else is refused while
      it is private. */
  lemma VisibilityRules(chats: ChatTable, i: nat, viewer: Option<UserId>)
    requires SlugsUnique(chats)
    requires i < |chats|
    ensures GetSavedChat(chats, chats[i].slug, Some(chats[i].ownerId)) == Ok(chats[i])
    ensures chats[i].isPublic ==> GetSavedChat(chats, chats[i].slug, viewer) == Ok(chats[i])
    ensures !chats[i].isPublic && viewer != Some(chats[i].ownerId) ==>
              GetSavedChat(chats, chats[i].slug, viewer) == Err(ChatIsPrivate)
  {
    var found := FindBySlug(chats, chats[i].slug);
    assert found.Some?;
  }
}

=== FILE: Decimal.dfy ===
/** Decimal rendering of natural numbers, as Python's `str(n)` and
    `f"{n:0{w}d}"` produce it, and its inverse. Used for the numeric suffix
    of a unique slug and for the zero-padded verification codes. */
module Decimal {

  function Pow10(k: nat): nat {
    if k == 0 then 1 else 10 * Pow10(k - 1)
  }

  predicate IsDigit(c: char) {
    '0' <= c <= '9'
  }

  predicate AllDigits(s: string) {
    forall i :: 0 <= i < |s| ==> IsDigit(s[i])
  }

  function DigitChar(d: nat): (c: char)
    requires d < 10
    ensures IsDigit(c)
  {
    "0123456789"[d]
  }

  function DigitValue(c: char): (d: nat)
    requires IsDigit(c)
    ensures d < 10
    ensures DigitChar(d) == c
  {
    (c as int - '0' as int) as nat
  }

  lemma DigitRoundTrip(d: nat)
    requires d < 10
    ensures DigitValue(DigitChar(d)) == d
  {
  }

  /** `str(n)` for a non-negative integer: no sign, no leading zeros. */
  function NatToStr(n: nat): (s: string)
    ensures |s| >= 1
    ensures AllDigits(s)
    ensures n >= 10 ==> |s| >= 2
    ensures s[0] == '0' ==> n == 0 && |s| == 1
    decreases n
  {
    if n < 10 then [DigitChar(n)] else NatToStr(n / 10) + [DigitChar(n % 10)]
  }

  /** The value a string of decimal digits denotes (leading zeros allowed). */
  function ParseDecimal(s: string): (n: nat)
    requires AllDigits(s)
    decreases |s|
  {
    if s == [] then 0 else 10 * ParseDecimal(s[..|s| - 1]) + DigitValue(s[|s| - 1])
  }

  function Zeros(k: nat): (s: string)
    ensures |s| == k
    ensures forall i :: 0 <= i < k ==> s[i] == '0'
  {
    if k == 0 then [] else Zeros(k - 1) + ['0']
  }

  /** Python's zero-padding format: the digits of `n`, widened with leading
      zeros to at least `width` characters. */
  function PadDecimal(n: nat, width: nat): (s: string)
    ensures AllDigits(s)
    ensures |s| == if |NatToStr(n)| >= width then |NatToStr(n)| else width
    ensures s[|s| - |NatToStr(n)|..] == NatToStr(n)
    ensures forall i :: 0 <= i < |s| - |NatToStr(n)| ==> s[i] == '0'
  {
    var digits := NatToStr(n);
    if |digits| >= width then digits else Zeros(width - |digits|) + digits
  }

  /** Reading back the decimal rendering of `n` gives `n`. */
  lemma {:induction false} ParseNatToStr(n: nat)
    ensures ParseDecimal(NatToStr(n)) == n
    decreases n
  {
    if n >= 10 {
      var s := NatToStr(n);
      assert s[..|s| - 1] == NatToStr(n / 10);
      ParseNatToStr(n / 10);
      DigitRoundTrip(n % 10);
    } else {
      DigitRoundTrip(n);
    }
  }

  lemma {:induction false} ParseZeros(k: nat)
    ensures ParseDecimal(Zeros(k)) == 0
  {
    if k > 0 {
      assert Zeros(k)[..k - 1] == Zeros(k - 1);
      ParseZeros(k - 1);
    }
  }

  /** Leading zeros do not change the value. */
  lemma {:induction false} ParseLeadingZeros(k: nat, s: string)
    requires AllDigits(s)
    ensures AllDigits(Zeros(k) + s)
    ensures ParseDecimal(Zeros(k) + s) == ParseDecimal(s)
    decreases |s|
  {
    var t := Zeros(k) + s;
    assert AllDigits(t) by {
      forall i | 0 <= i < |t| ensures IsDigit(t[i]) {
        if i < k { assert t[i] == '0'; } else { assert t[i] == s[i - k]; }
      }
    }
    if s == [] {
      assert t == Zeros(k);
      ParseZeros(k);
    } else {
      assert t[..|t| - 1] == Zeros(k) + s[..|s| - 1];
      ParseLeadingZeros(k, s[..|s| - 1]);
    }
  }

  /** The zero-padded rendering reads back as the number it renders. */
  lemma PadDecimalRoundTrip(n: nat, width: nat)
    ensures ParseDecimal(PadDecimal(n, width)) == n
  {
    var digits := NatToStr(n);
    ParseNatToStr(n);
    if |digits| < width {
      ParseLeadingZeros(width - |digits|, digits);
    }
  }

  /** A number below `10^width` needs at most `width` digits. */
  lemma {:induction false} NatToStrFits(n: nat, width: nat)
    requires 1 <= width
    requires n < Pow10(width)
    ensures |NatToStr(n)| <= width
    decreases n
  {
    if n >= 10 {
      assert Pow10(1) == 10;
      assert n / 10 < Pow10(width - 1);
      NatToStrFits(n / 10, width - 1);
    }
  }

  /** Distinct numbers render to distinct strings. */
  lemma NatToStrInjective(a: nat, b: nat)
    requires NatToStr(a) == NatToStr(b)
    ensures a == b
  {
    ParseNatToStr(a);
    ParseNatToStr(b);
  }
}

=== FILE: RateLimits.dfy ===
/** The daily usage ledger and the two halves of the quota guard:
    `_get_or_create_daily_usage`, `check_rate_limits` and
    `update_rate_limits`. The ledger is the state of the database as one
    request's session sees it; "today" and the two daily limits are inputs. */
module RateLimits {
  import opened Wrappers
  import opened Records

  /** The configured daily limits. */
  datatype Limits = Limits(dailyTokens: int, dailyMessages: int)

  datatype QuotaError = TokenLimitReached | MessageLimitReached

  /** The row that a read of `(user, today)` observes: the stored one, or the
      zeroed row that get-or-create would insert. */
  function Observed(ledger: Ledger, key: UsageKey): Usage {
    if key in ledger then ledger[key] else ZeroUsage
  }

  /** The pre-check's acceptance condition: neither counter is already
      strictly above its limit. Reaching a limit exactly still passes. */
  predicate WithinLimits(u: Usage, limits: Limits) {
    u.tokens <= limits.dailyTokens && u.numMessages <= limits.dailyMessages
  }

  /** The ledger row for `key` is the only one that may differ between the two
      ledgers, and no row disappears. */
  ghost predicate OnlyKeyTouched(before: Ledger, after: Ledger, key: UsageKey) {
    && after.Keys == before.Keys + {key}
    && forall k :: k in before && k != key ==> after[k] == before[k]
  }

  datatype Fetched = Fetched(usage: Usage, ledger: Ledger)

  /** `_get_or_create_daily_usage`: the row for `(user, today)`, inserting a
      zeroed one when there is none. Row locking is not modelled: every step
      of the model is atomic. */
  function GetOrCreateDailyUsage(ledger: Ledger, user: UserId, today: Day): (r: Fetched)
    ensures UsageKey(user, today) in r.ledger
    ensures r.ledger[UsageKey(user, today)] == r.usage
    ensures UsageKey(user, today) in ledger ==> r.usage == ledger[UsageKey(user, today)] && r.ledger == ledger
    ensures UsageKey(user, today) !in ledger ==> r.usage == ZeroUsage
    ensures OnlyKeyTouched(ledger, r.ledger, UsageKey(user, today))
  {
    var key := UsageKey(user, today);
    if key in ledger then Fetched(ledger[key], ledger)
    else Fetched(ZeroUsage, ledger[key := ZeroUsage])
  }

  /** Get-or-create is idempotent: a second call returns the same counters and
      changes nothing. */
  lemma GetOrCreateTwice(ledger: Ledger, user: UserId, today: Day)
    ensures var first := GetOrCreateDailyUsage(ledger, user, today);
            var second := GetOrCreateDailyUsage(first.ledger, user, today);
            second.usage == first.usage && second.ledger == first.ledger
  {
  }

  datatype Checked = Checked(ledger: Ledger, outcome: Outcome<QuotaError>)

  /** `check_rate_limits`: fetch today's row without a lock and reject when a
      counter is strictly above its limit, the token limit being tested
      first. The returned ledger is the session's, holding the possibly new
      zeroed row. */
  function CheckRateLimits(ledger: Ledger, user: UserId, today: Day, limits: Limits): (r: Checked)
    ensures var u := Observed(ledger, UsageKey(user, today));
            && (r.outcome == Pass <==> WithinLimits(u, limits))
            && (r.outcome == Fail(TokenLimitReached) <==> u.tokens > limits.dailyTokens)
            && (r.outcome == Fail(MessageLimitReached) <==>
                  u.tokens <= limits.dailyTokens && u.numMessages > limits.dailyMessages)
    ensures OnlyKeyTouched(ledger, r.ledger, UsageKey(user, today))
    ensures r.ledger[UsageKey(user, today)] == Observed(ledger, UsageKey(user, today))
  {
    var fetched := GetOrCreateDailyUsage(ledger, user, today);
    var outcome :=
      if fetched.usage.tokens > limits.dailyTokens then Fail(TokenLimitReached)
      else if fetched.usage.numMessages > limits.dailyMessages then Fail(MessageLimitReached)
      else Pass;
    Checked(fetched.ledger, outcome)
  }

  /** `update_rate_limits`: fetch today's row (under a lock in the source) and
      add the deltas to its counters. The default message increment of the
      source is 1; callers pass it explicitly. */
  function UpdateRateLimits(ledger: Ledger, user: UserId, today: Day, tokensUsed: int, messageIncrement: int): (r: Ledger)
    ensures OnlyKeyTouched(ledger, r, UsageKey(user, today))
    ensures var before := Observed(ledger, UsageKey(user, today));
            r[UsageKey(user, today)] == Usage(before.tokens + tokensUsed, before.numMessages + messageIncrement)
  {
    var fetched := GetOrCreateDailyUsage(ledger, user, today);
    var u := fetched.usage;
    fetched.ledger[UsageKey(user, today) := Usage(u.tokens + tokensUsed, u.numMessages + messageIncrement)]
  }

  /** With non-negative deltas no counter of any row ever decreases. */
  lemma UpdateMonotone(ledger: Ledger, user: UserId, today: Day, tokensUsed: nat, messageIncrement: nat)
    ensures var after := UpdateRateLimits(ledger, user, today, tokensUsed, messageIncrement);
            forall k :: k in ledger ==>
              k in after && after[k].tokens >= ledger[k].tokens && after[k].numMessages >= ledger[k].numMessages
  {
  }

  /** Two commits one after the other for the same user and day are both
      reflected in full: the counters end at the sum of the deltas. */
  lemma {:induction false} UpdatesAccumulate(ledger: Ledger, user: UserId, today: Day, t1: int, m1: int, t2: int, m2: int)
    ensures var key := UsageKey(user, today);
            var after := UpdateRateLimits(UpdateRateLimits(ledger, user, today, t1, m1), user, today, t2, m2);
            after == UpdateRateLimits(ledger, user, today, t1 + t2, m1 + m2)
  {
    var key := UsageKey(user, today);
    var once := UpdateRateLimits(ledger, user, today, t1, m1);
    var twice := UpdateRateLimits(once, user, today, t2, m2);
    var merged := UpdateRateLimits(ledger, user, today, t1 + t2, m1 + m2);
    assert twice.Keys == merged.Keys;
    assert twice[key] == merged[key];
  }

  /** The row that the pre-check may have inserted does not affect the
      commit: committing after a check gives the same ledger as committing
      directly. */
  lemma UpdateAfterCheck(ledger: Ledger, user: UserId, today: Day, limits: Limits, tokensUsed: int, messageIncrement: int)
    ensures UpdateRateLimits(CheckRateLimits(ledger, user, today, limits).ledger, user, today, tokensUsed, messageIncrement)
         == UpdateRateLimits(ledger, user, today, tokensUsed, messageIncrement)
  {
    var key := UsageKey(user, today);
    var checked := CheckRateLimits(ledger, user, today, limits).ledger;
    if key !in ledger {
      var row := Usage(tokensUsed, messageIncrement);
      assert checked == ledger[key := ZeroUsage];
      assert UpdateRateLimits(checked, user, today, tokensUsed, messageIncrement) == checked[key := row];
      assert UpdateRateLimits(ledger, user, today, tokensUsed, messageIncrement) == ledger[key := row];
      assert checked[key := row] == ledger[key := row];
    }
  }

  /** A user's first check of a day finds no row, creates a zeroed one and
      passes, whenever the limits are not negative. */
  lemma FirstCheckOfTheDay(ledger: Ledger, user: UserId, today: Day, limits: Limits)
    requires UsageKey(user, today) !in ledger
    requires limits.dailyTokens >= 0 && limits.dailyMessages >= 0
    ensures var r := CheckRateLimits(ledger, user, today, limits);
            r.outcome == Pass && r.ledger == ledger[UsageKey(user, today) := ZeroUsage]
  {
  }

  /** The limit is "already spent", not "would exceed": with a 100-token limit a
      user at 95 tokens passes the check, a 10-token commit takes them to 105,
      and only the next check rejects. */
  lemma OvershootScenario(ledger: Ledger, user: UserId, today: Day)
    requires UsageKey(user, today) in ledger
    requires ledger[UsageKey(user, today)] == Usage(95, 3)
    ensures var limits := Limits(100, 50);
            var first := CheckRateLimits(ledger, user, today, limits);
            var committed := UpdateRateLimits(first.ledger, user, today, 10, 1);
            var second := CheckRateLimits(committed, user, today, limits);
            && first.outcome == Pass
            && committed[UsageKey(user, today)] == Usage(105, 4)
            && second.outcome == Fail(TokenLimitReached)
  {
  }

  /** The pre-check bounds only what was spent before the request: after a
      passing check the commit takes the counter past the limit by at most
      the size of the request, and by exactly that much when the counter
      stood at the limit. */
  lemma CommitOvershootBound(ledger: Ledger, user: UserId, today: Day, limits: Limits, tokensUsed: int)
    requires CheckRateLimits(ledger, user, today, limits).outcome == Pass
    ensures var after := UpdateRateLimits(ledger, user, today, tokensUsed, 1);
            after[UsageKey(user, today)].tokens <= limits.dailyTokens + tokensUsed
    ensures Observed(ledger, UsageKey(user, today)).tokens == limits.dailyTokens ==>
              UpdateRateLimits(ledger, user, today, tokensUsed, 1)[UsageKey(user, today)].tokens
                == limits.dailyTokens + tokensUsed
  {
  }

  /** `update_rate_limits` through the request's session. The locking query
      does not ask for a refresh, so when the session still holds the object
      its pre-check loaded (`held`), the query hands that object back with
      the counters it had then, and the commit writes those counters plus
      the deltas. When the session no longer holds it, the query loads the
      locked row, and the commit is `UpdateRateLimits`. Whether the object
      survives depends on the session's weak references and is an input. */
  function CommitFromSession(ledger: Ledger, user: UserId, today: Day, held: Option<Usage>,
                             tokensUsed: int, messageIncrement: int): (r: Ledger)
    ensures OnlyKeyTouched(ledger, r, UsageKey(user, today))
    ensures held.Some? ==>
              r[UsageKey(user, today)] == Usage(held.value.tokens + tokensUsed, held.value.numMessages + messageIncrement)
    ensures held.None? ==> r == UpdateRateLimits(ledger, user, today, tokensUsed, messageIncrement)
  {
    match held
    case Some(u) => ledger[UsageKey(user, today) := Usage(u.tokens + tokensUsed, u.numMessages + messageIncrement)]
    case None => UpdateRateLimits(ledger, user, today, tokensUsed, messageIncrement)
  }

  /** For a lone request the object the session holds carries the current
      counters, so the commit agrees with `UpdateRateLimits` whether or not
      the object survived. */
  lemma SessionCommitWhenFresh(ledger: Ledger, user: UserId, today: Day, tokensUsed: int, messageIncrement: int)
    requires UsageKey(user, today) in ledger
    ensures CommitFromSession(ledger, user, today, Some(ledger[UsageKey(user, today)]), tokensUsed, messageIncrement)
         == UpdateRateLimits(ledger, user, today, tokensUsed, messageIncrement)
    ensures CommitFromSession(ledger, user, today, None, tokensUsed, messageIncrement)
         == UpdateRateLimits(ledger, user, today, tokensUsed, messageIncrement)
  {
  }

  /** The hazard: requests A and B pre-check the same row before either
      commits, then A commits and B commits. If B's session still holds the
      object its pre-check loaded, B writes those stale counters plus its own
      delta, and A's tokens and message are lost. */
  lemma InterleavedCommitsLoseUpdate(ledger: Ledger, user: UserId, today: Day, limits: Limits,
                                     heldA: Option<Usage>, t1: int, t2: int)
    requires UsageKey(user, today) in ledger
    requires CheckRateLimits(ledger, user, today, limits).outcome == Pass
    requires heldA == None || heldA == Some(ledger[UsageKey(user, today)])
    ensures var key := UsageKey(user, today);
            var seen := CheckRateLimits(ledger, user, today, limits).ledger[key];
            var afterA := CommitFromSession(ledger, user, today, heldA, t1, 1);
            var afterB := CommitFromSession(afterA, user, today, Some(seen), t2, 1);
            && afterA[key] == Usage(ledger[key].tokens + t1, ledger[key].numMessages + 1)
            && afterB[key] == Usage(ledger[key].tokens + t2, ledger[key].numMessages + 1)
            && afterB[key] != Usage(ledger[key].tokens + t1 + t2, ledger[key].numMessages + 2)
  {
  }

  /** The hazard on numbers: at 95 tokens and 3 messages, both requests pass;
      if B's session still holds its pre-check object, A spending 10 and then
      B spending 20 leaves 115 tokens and 4 messages instead of 125 and 5. */
  lemma LostUpdateExample(ledger: Ledger, user: UserId, today: Day)
    requires UsageKey(user, today) in ledger && ledger[UsageKey(user, today)] == Usage(95, 3)
    ensures var key := UsageKey(user, today);
            var limits := Limits(100, 50);
            var checked := CheckRateLimits(ledger, user, today, limits);
            var afterA := CommitFromSession(ledger, user, today, None, 10, 1);
            var afterB := CommitFromSession(afterA, user, today, Some(checked.ledger[key]), 20, 1);
            && checked.outcome == Pass
            && afterB[key] == Usage(115, 4)
  {
  }

  /** The same interleaving when B's session no longer holds its pre-check
      object: the locked query loads what A committed, and both requests'
      tokens and messages land. */
  lemma InterleavedCommitsAccumulate(ledger: Ledger, user: UserId, today: Day, limits: Limits,
                                     heldA: Option<Usage>, t1: int, t2: int)
    requires CheckRateLimits(ledger, user, today, limits).outcome == Pass
    requires heldA == None || heldA == Some(Observed(ledger, UsageKey(user, today)))
    ensures var before := Observed(ledger, UsageKey(user, today));
            var afterA := CommitFromSession(ledger, user, today, heldA, t1, 1);
            var afterB := CommitFromSession(afterA, user, today, None, t2, 1);
            afterB[UsageKey(user, today)] == Usage(before.tokens + t1 + t2, before.numMessages + 2)
  {
    var afterA := CommitFromSession(ledger, user, today, heldA, t1, 1);
    assert afterA[UsageKey(user, today)] == UpdateRateLimits(ledger, user, today, t1, 1)[UsageKey(user, today)];
    UpdatesAccumulate(ledger, user, today, t1, 1, t2, 1);
  }

  /** Rows of other users and other days are never touched by a commit. */
  lemma CommitIsolated(ledger: Ledger, user: UserId, today: Day, tokensUsed: int, messageIncrement: int, other: UsageKey)
    requires other != UsageKey(user, today)
    ensures Observed(UpdateRateLimits(ledger, user, today, tokensUsed, messageIncrement), other) == Observed(ledger, other)
  {
  }
}

=== FILE: Records.dfy ===
/** The persisted record shapes of the chat backend (users, the daily usage
    ledger, e-mail verification tokens, chats and their messages), with the
    defaults and uniqueness constraints the schema declares. Primary keys that
    a table only uses for joins are left implicit; a uniqueness constraint is
    expressed by choosing the constrained columns as the key of a map or by a
    predicate over a table. */
module Records {
  import opened Wrappers

  type UserId = int
  type ChatId = int

  /** A calendar date, as a day number; the ledger only compares days. */
  type Day = int

  /** A point in time, in seconds. */
  type Instant = int

  datatype User = User(email: string, passwordHash: string, verified: bool, pseudonym: string)

  /** A freshly registered account; e-mail verification flips `verified`. */
  function NewUser(email: string, passwordHash: string, pseudonym: string): (u: User)
    ensures !u.verified
    ensures u.email == email && u.pseudonym == pseudonym && u.passwordHash == passwordHash
  {
    User(email, passwordHash, false, pseudonym)
  }

  /** The counters of one `(user, day)` row of the usage ledger. */
  datatype Usage = Usage(tokens: int, numMessages: int)

  /** The row created on first access of a day: both counters zero. */
  const ZeroUsage: Usage := Usage(0, 0)

  /** The key that the `(user_id, date)` uniqueness constraint ranges over. */
  datatype UsageKey = UsageKey(user: UserId, day: Day)

  /** The usage ledger. Keying the map by `(user, day)` makes "at most one row
      per user per day" hold for every value of this type. */
  type Ledger = map<UsageKey, Usage>

  /** An e-mail verification token; the code itself is the key of the token
      store, which is how the uniqueness of `token` is kept. */
  datatype VerificationToken = VerificationToken(user: UserId, expiresAt: Instant, used: bool)

  type TokenStore = map<string, VerificationToken>

  /** A newly issued token is unused. */
  function NewToken(user: UserId, expiresAt: Instant): (t: VerificationToken)
    ensures !t.used
    ensures t.user == user && t.expiresAt == expiresAt
  {
    VerificationToken(user, expiresAt, false)
  }

  /** Message author, stored as an integer column. */
  datatype Role = FromUser | FromModel

  function RoleCode(r: Role): (code: int)
    ensures 0 <= code <= 1
    ensures code == 0 <==> r == FromUser
  {
    match r
    case FromUser => 0
    case FromModel => 1
  }

  function RoleOfCode(code: int): (r: Option<Role>)
    ensures r.None? <==> !(0 <= code <= 1)
  {
    if code == 0 then Some(FromUser) else if code == 1 then Some(FromModel) else None
  }

  /** The integer encoding of roles is a bijection onto `{0, 1}`. */
  lemma RoleCodeRoundTrip(r: Role, code: int)
    ensures RoleOfCode(RoleCode(r)) == Some(r)
    ensures RoleOfCode(code).Some? ==> RoleCode(RoleOfCode(code).value) == code
  {
  }

  datatype Highlight = Highlight(startingIndex: int, endingIndex: int, comment: Option<string>)

  datatype Message = Message(role: Role, content: string, highlights: seq<Highlight>)

  datatype Chat = Chat(
    ownerId: UserId,
    title: string,
    modelId: int,
    slug: string,
    isPublic: bool,
    anonymous: bool,
    likes: int,
    publishedAt: Option<Instant>,
    messages: seq<Message>)

  /** The chats table in insertion order. The model assumes that the chat at
      index `i` has id `i + 1`: ids come from an auto-increment key and no
      modelled route deletes a chat. A key sequence that skips a value after
      a rolled-back insert is not represented. */
  type ChatTable = seq<Chat>

  function ChatIdAt(i: nat): ChatId {
    i + 1
  }

  /** The `slug` column is unique across chats. */
  ghost predicate SlugsUnique(chats: ChatTable) {
    forall i, j :: 0 <= i < j < |chats| ==> chats[i].slug != chats[j].slug
  }

  function SlugsOf(chats: ChatTable): (slugs: set<string>)
    ensures forall i :: 0 <= i < |chats| ==> chats[i].slug in slugs
    ensures forall s :: s in slugs ==> exists i :: 0 <= i < |chats| && chats[i].slug == s
  {
    set i | 0 <= i < |chats| :: chats[i].slug
  }

  /** The model registry: model id to provider-facing name and display name. */
  datatype ModelInfo = ModelInfo(apiName: string, prettyName: string)

  type ModelRegistry = map<int, ModelInfo>
}

=== FILE: Slugs.dfy ===
/** Slug generation for saved chats: `slugify` turns a title into a
    URL-safe slug, and `unique_slug` picks the first of `base`, `base-1`,
    `base-2`, ... that no chat uses yet. */
module Slugs {
  import opened Decimal

  predicate IsUpper(c: char) {
    'A' <= c <= 'Z'
  }

  predicate IsAlnum(c: char) {
    'a' <= c <= 'z' || IsUpper(c) || IsDigit(c)
  }

  /** The characters the slug pattern keeps: ASCII letters, digits and `-`. */
  predicate Allowed(c: char) {
    IsAlnum(c) || c == '-'
  }

  /** The characters a finished slug is made of. */
  predicate IsSlugChar(c: char) {
    Allowed(c) && !IsUpper(c)
  }

  predicate NoUpper(s: string) {
    forall i :: 0 <= i < |s| ==> !IsUpper(s[i])
  }

  predicate AllAllowed(s: string) {
    forall i :: 0 <= i < |s| ==> Allowed(s[i])
  }

  predicate AllSlugChars(s: string) {
    forall i :: 0 <= i < |s| ==> IsSlugChar(s[i])
  }

  /** A well-formed slug: non-empty, lower-case letters, digits and dashes,
      with no dash at either end. */
  predicate IsSlug(s: string) {
    && |s| > 0
    && AllSlugChars(s)
    && s[0] != '-' && s[|s| - 1] != '-'
  }

  function LowerChar(c: char): (l: char)
    ensures !IsUpper(l)
    ensures IsAlnum(l) <==> IsAlnum(c)
    ensures Allowed(l) <==> Allowed(c)
    ensures !IsUpper(c) ==> l == c
  {
    if IsUpper(c) then (c as int - 'A' as int + 'a' as int) as char else c
  }

  /** `str.lower()` on ASCII letters. */
  function Lower(s: string): (r: string)
    ensures |r| == |s|
    ensures forall i :: 0 <= i < |s| ==> r[i] == LowerChar(s[i])
    ensures NoUpper(r)
    ensures NoUpper(s) ==> r == s
  {
    if s == [] then [] else [LowerChar(s[0])] + Lower(s[1..])
  }

  /** The letters and digits of a string, in order. */
  function Alnums(s: string): (r: string)
    ensures |r| <= |s|
    ensures forall i :: 0 <= i < |r| ==> IsAlnum(r[i])
  {
    if s == [] then [] else (if IsAlnum(s[0]) then [s[0]] else []) + Alnums(s[1..])
  }

  lemma {:induction false} AlnumsAppend(a: string, b: string)
    ensures Alnums(a + b) == Alnums(a) + Alnums(b)
  {
    if a != [] {
      var head: string := if IsAlnum(a[0]) then [a[0]] else [];
      assert (a + b)[0] == a[0];
      assert (a + b)[1..] == a[1..] + b;
      AlnumsAppend(a[1..], b);
      assert Alnums(a + b) == head + (Alnums(a[1..]) + Alnums(b));
      assert head + (Alnums(a[1..]) + Alnums(b)) == (head + Alnums(a[1..])) + Alnums(b);
    } else {
      assert a + b == b;
    }
  }

  /** Drops the run of disallowed characters at the front. */
  function SkipDisallowed(s: string): (r: string)
    ensures |r| <= |s|
    ensures r == [] || Allowed(r[0])
    ensures r == s[|s| - |r|..]
    ensures s != [] && Allowed(s[|s| - 1]) ==> r != []
  {
    if s != [] && !Allowed(s[0]) then SkipDisallowed(s[1..]) else s
  }

  /** The skipped characters are neither letters nor digits. */
  lemma {:induction false} SkipDisallowedKeepsAlnums(s: string)
    ensures Alnums(SkipDisallowed(s)) == Alnums(s)
  {
    if s != [] && !Allowed(s[0]) {
      SkipDisallowedKeepsAlnums(s[1..]);
    }
  }

  /** `re.sub(r"[^a-zA-Z0-9-]+", "-", s)`: every maximal run of disallowed
      characters becomes one dash. */
  function ReplaceRuns(s: string): (r: string)
    ensures AllAllowed(r)
    decreases |s|
  {
    if s == [] then []
    else if Allowed(s[0]) then [s[0]] + ReplaceRuns(s[1..])
    else "-" + ReplaceRuns(SkipDisallowed(s[1..]))
  }

  /** Without upper-case letters in the input, the substitution yields only
      slug characters. */
  lemma {:induction false} ReplaceRunsSlugChars(s: string)
    requires NoUpper(s)
    ensures AllSlugChars(ReplaceRuns(s))
    decreases |s|
  {
    if s != [] {
      if Allowed(s[0]) {
        ReplaceRunsSlugChars(s[1..]);
      } else {
        var rest := SkipDisallowed(s[1..]);
        assert rest == s[|s| - |rest|..];
        ReplaceRunsSlugChars(rest);
      }
    }
  }

  /** A string of allowed characters is left as it is. */
  lemma {:induction false} ReplaceRunsKeepsAllowed(s: string)
    requires AllAllowed(s)
    ensures ReplaceRuns(s) == s
  {
    if s != [] {
      ReplaceRunsKeepsAllowed(s[1..]);
    }
  }

  /** The substitution keeps every letter and digit, in order. */
  lemma {:induction false} ReplaceRunsKeepsAlnums(s: string)
    ensures Alnums(ReplaceRuns(s)) == Alnums(s)
    decreases |s|
  {
    if s != [] {
      if Allowed(s[0]) {
        ReplaceRunsKeepsAlnums(s[1..]);
        AlnumsAppend([s[0]], ReplaceRuns(s[1..]));
      } else {
        var rest := SkipDisallowed(s[1..]);
        SkipDisallowedKeepsAlnums(s[1..]);
        ReplaceRunsKeepsAlnums(rest);
        AlnumsAppend("-", ReplaceRuns(rest));
      }
    }
  }

  /** A run of characters the pattern does not keep. */
  predicate DisallowedRun(r: string) {
    |r| > 0 && forall i :: 0 <= i < |r| ==> !Allowed(r[i])
  }

  /** Skipping stops inside `a` when `a` ends in an allowed character. */
  lemma {:induction false} SkipDisallowedAppend(a: string, b: string)
    requires a != [] && Allowed(a[|a| - 1])
    ensures SkipDisallowed(a + b) == SkipDisallowed(a) + b
  {
    assert (a + b)[0] == a[0];
    if !Allowed(a[0]) {
      assert |a| > 1;
      assert (a + b)[1..] == a[1..] + b;
      SkipDisallowedAppend(a[1..], b);
    }
  }

  /** Skipping a run of disallowed characters lands on what follows it. */
  lemma {:induction false} SkipDisallowedRun(r: string, q: string)
    requires forall i :: 0 <= i < |r| ==> !Allowed(r[i])
    requires q == [] || Allowed(q[0])
    ensures SkipDisallowed(r + q) == q
  {
    if r == [] {
      assert r + q == q;
    } else {
      assert (r + q)[0] == r[0];
      assert (r + q)[1..] == r[1..] + q;
      SkipDisallowedRun(r[1..], q);
    }
  }

  /** Where the dashes go: a maximal run of disallowed characters between
      `p` and `q` becomes exactly one dash at its place, and the text on
      either side is substituted on its own. */
  lemma {:induction false} ReplaceRunsSplit(p: string, r: string, q: string)
    requires DisallowedRun(r)
    requires p == [] || Allowed(p[|p| - 1])
    requires q == [] || Allowed(q[0])
    ensures ReplaceRuns(p + r + q) == ReplaceRuns(p) + "-" + ReplaceRuns(q)
    decreases |p|, 1
  {
    if p == [] {
      SplitAtFront(p, r, q);
    } else if Allowed(p[0]) {
      SplitAfterAllowed(p, r, q);
    } else {
      SplitAfterRun(p, r, q);
    }
  }

  /** The split when the run comes first. */
  lemma SplitAtFront(p: string, r: string, q: string)
    requires p == [] && DisallowedRun(r)
    requires q == [] || Allowed(q[0])
    ensures ReplaceRuns(p + r + q) == ReplaceRuns(p) + "-" + ReplaceRuns(q)
  {
    calc {
      ReplaceRuns(p + r + q);
      { assert p + r + q == r + q; }
      ReplaceRuns(r + q);
      { ReplaceRunsAtRun(r, q); }
      "-" + ReplaceRuns(q);
      { assert ReplaceRuns(p) == []; }
      ReplaceRuns(p) + "-" + ReplaceRuns(q);
    }
  }

  /** The split when `p` starts with a kept character. */
  lemma {:induction false} SplitAfterAllowed(p: string, r: string, q: string)
    requires DisallowedRun(r)
    requires p != [] && Allowed(p[0]) && Allowed(p[|p| - 1])
    requires q == [] || Allowed(q[0])
    ensures ReplaceRuns(p + r + q) == ReplaceRuns(p) + "-" + ReplaceRuns(q)
    decreases |p|, 0
  {
    assert (p + r + q)[0] == p[0];
    assert (p + r + q)[1..] == p[1..] + r + q;
    ReplaceRunsSplit(p[1..], r, q);
    assert ReplaceRuns(p + r + q) == [p[0]] + (ReplaceRuns(p[1..]) + "-" + ReplaceRuns(q));
    assert ReplaceRuns(p) == [p[0]] + ReplaceRuns(p[1..]);
    Regroup([p[0]], ReplaceRuns(p[1..]), ReplaceRuns(q));
  }

  /** The split when `p` starts with a run of its own. */
  lemma {:induction false} SplitAfterRun(p: string, r: string, q: string)
    requires DisallowedRun(r)
    requires p != [] && !Allowed(p[0]) && Allowed(p[|p| - 1])
    requires q == [] || Allowed(q[0])
    ensures ReplaceRuns(p + r + q) == ReplaceRuns(p) + "-" + ReplaceRuns(q)
    decreases |p|, 0
  {
    var skipped := SkipDisallowed(p[1..]);
    LeadingRunOfPrefix(p, r, q);
    calc {
      ReplaceRuns(p + r + q);
      "-" + ReplaceRuns(skipped + r + q);
      { ReplaceRunsSplit(skipped, r, q); }
      "-" + (ReplaceRuns(skipped) + "-" + ReplaceRuns(q));
      { Regroup("-", ReplaceRuns(skipped), ReplaceRuns(q)); }
      "-" + ReplaceRuns(skipped) + "-" + ReplaceRuns(q);
      ReplaceRuns(p) + "-" + ReplaceRuns(q);
    }
  }

  /** A leading run of `p` is replaced the same way whatever follows `p`,
      and what remains of `p` after it is shorter, non-empty and still ends
      in a kept character. */
  lemma LeadingRunOfPrefix(p: string, r: string, q: string)
    requires p != [] && !Allowed(p[0]) && Allowed(p[|p| - 1])
    ensures var skipped := SkipDisallowed(p[1..]);
            && ReplaceRuns(p + r + q) == "-" + ReplaceRuns(skipped + r + q)
            && ReplaceRuns(p) == "-" + ReplaceRuns(skipped)
            && skipped != [] && |skipped| < |p| && Allowed(skipped[|skipped| - 1])
  {
    var rest := p[1..];
    var tail := r + q;
    assert |p| >= 2 && rest[|rest| - 1] == p[|p| - 1];
    Associate(p, r, q);
    assert (p + tail)[0] == p[0];
    assert (p + tail)[1..] == rest + tail;
    SkipDisallowedAppend(rest, tail);
    var skipped := SkipDisallowed(rest);
    Associate(skipped, r, q);
    assert skipped[|skipped| - 1] == rest[|rest| - 1];
  }

  lemma Associate(a: string, b: string, c: string)
    ensures a + (b + c) == a + b + c
  {
  }

  lemma Regroup(a: string, b: string, c: string)
    ensures a + (b + "-" + c) == a + b + "-" + c
  {
  }

  /** A run at the very front becomes one dash. */
  lemma ReplaceRunsAtRun(r: string, q: string)
    requires DisallowedRun(r)
    requires q == [] || Allowed(q[0])
    ensures ReplaceRuns(r + q) == "-" + ReplaceRuns(q)
  {
    assert (r + q)[0] == r[0];
    assert (r + q)[1..] == r[1..] + q;
    SkipDisallowedRun(r[1..], q);
  }

  /** `s.lstrip("-")`. */
  function StripLeading(s: string): (r: string)
    ensures |r| <= |s|
    ensures r == [] || r[0] != '-'
    ensures r == s[|s| - |r|..]
    ensures forall i :: 0 <= i < |s| - |r| ==> s[i] == '-'
    ensures s != [] && s[0] != '-' ==> r == s
  {
    if s != [] && s[0] == '-' then StripLeading(s[1..]) else s
  }

  /** Stripping leading dashes keeps every letter and digit. */
  lemma {:induction false} StripLeadingKeepsAlnums(s: string)
    ensures Alnums(StripLeading(s)) == Alnums(s)
  {
    if s != [] && s[0] == '-' {
      StripLeadingKeepsAlnums(s[1..]);
    }
  }

  /** `s.rstrip("-")`. */
  function StripTrailing(s: string): (r: string)
    ensures |r| <= |s|
    ensures r == [] || r[|r| - 1] != '-'
    ensures r == s[..|r|]
    ensures forall i :: |r| <= i < |s| ==> s[i] == '-'
    ensures AllSlugChars(s) ==> AllSlugChars(r)
    ensures s != [] && s[|s| - 1] != '-' ==> r == s
    decreases |s|
  {
    if s != [] && s[|s| - 1] == '-' then StripTrailing(s[..|s| - 1]) else s
  }

  /** Stripping trailing dashes keeps every letter and digit. */
  lemma {:induction false} StripTrailingKeepsAlnums(s: string)
    ensures Alnums(StripTrailing(s)) == Alnums(s)
    decreases |s|
  {
    if s != [] && s[|s| - 1] == '-' {
      var init := s[..|s| - 1];
      StripTrailingKeepsAlnums(init);
      assert s == init + "-";
      AlnumsAppend(init, "-");
    }
  }

  const FallbackSlug: string := "chat"

  /** `slugify`: lower-case, replace each run of other characters by one dash,
      strip dashes from both ends, and fall back to `chat` if nothing is left. */
  function Slugify(value: string): (r: string)
    ensures IsSlug(r)
  {
    var replaced := ReplaceRuns(Lower(value));
    var cleaned := StripTrailing(StripLeading(replaced));
    ReplaceRunsSlugChars(Lower(value));
    if cleaned == [] then
      FallbackIsSlug();
      FallbackSlug
    else
      TrimmedIsSlug(replaced);
      cleaned
  }

  /** The fallback is itself a well-formed slug. */
  lemma FallbackIsSlug()
    ensures IsSlug(FallbackSlug)
  {
    assert IsSlugChar(FallbackSlug[0]) && IsSlugChar(FallbackSlug[1]);
    assert IsSlugChar(FallbackSlug[2]) && IsSlugChar(FallbackSlug[3]);
  }

  /** Trimming the dashes off a string of slug characters leaves a slug,
      unless it leaves nothing. */
  lemma TrimmedIsSlug(s: string)
    requires AllSlugChars(s)
    requires StripTrailing(StripLeading(s)) != []
    ensures IsSlug(StripTrailing(StripLeading(s)))
  {
    var stripped := StripLeading(s);
    SuffixSlugChars(s, |s| - |stripped|);
    var cleaned := StripTrailing(stripped);
    assert cleaned[0] == stripped[0];
  }

  /** A worked case: punctuation and the space between two words become a
      single dash, and the trailing `!` leaves a dash that is stripped. */
  lemma SlugifyExample(title: string)
    requires title == "Hello, World!"
    ensures Slugify(title) == "hello-world"
  {
    var lowered := Lower(title);
    LowerExample(title);
    ReplaceRunsExample(lowered);
    var replaced := ReplaceRuns(lowered);
    assert StripLeading(replaced) == replaced;
    assert replaced == "hello-world" + "-";
    assert StripTrailing(replaced) == StripTrailing("hello-world");
  }

  /** The first step of the worked case: only the two capitals change. */
  lemma LowerExample(title: string)
    requires title == "Hello, World!"
    ensures Lower(title) == "hello, world!"
  {
    var lowered := Lower(title);
    assert lowered[0] == 'h' by {
      assert title[0] == 'H';
    }
    assert lowered[7] == 'w' by {
      assert title[7] == 'W';
    }
    assert forall i | 0 <= i < |title| && i != 0 && i != 7 :: lowered[i] == title[i];
  }

  /** The second step: `", "` and the final `!` each become one dash. */
  lemma ReplaceRunsExample(s: string)
    requires s == "hello, world!"
    ensures ReplaceRuns(s) == "hello-world-"
  {
    var first, run, rest := s[..5], s[5..7], s[7..];
    var second, bang := rest[..5], rest[5..];
    assert ReplaceRuns(s) == first + "-" + ReplaceRuns(rest) by {
      assert s == first + run + rest;
      ReplaceRunsSplit(first, run, rest);
      LowerWord(first);
    }
    assert ReplaceRuns(rest) == second + "-" by {
      assert rest == second + bang + [];
      ReplaceRunsSplit(second, bang, []);
      LowerWord(second);
    }
  }

  /** A word of lower-case letters passes the substitution unchanged. */
  lemma LowerWord(w: string)
    requires forall i :: 0 <= i < |w| ==> 'a' <= w[i] <= 'z'
    ensures ReplaceRuns(w) == w
  {
    ReplaceRunsKeepsAllowed(w);
  }

  /** Every suffix of a string of slug characters is one too. */
  lemma SuffixSlugChars(s: string, k: nat)
    requires AllSlugChars(s) && k <= |s|
    ensures AllSlugChars(s[k..])
  {
  }

  /** The slug keeps every letter and digit of the lower-cased title, in order;
      a title with none of them gets the fallback. */
  lemma {:induction false} SlugifyKeepsAlnums(value: string)
    ensures Alnums(Lower(value)) != [] ==> Alnums(Slugify(value)) == Alnums(Lower(value))
    ensures Alnums(Lower(value)) == [] ==> Slugify(value) == FallbackSlug
  {
    var lowered := Lower(value);
    var replaced := ReplaceRuns(lowered);
    ReplaceRunsKeepsAlnums(lowered);
    var stripped := StripLeading(replaced);
    StripLeadingKeepsAlnums(replaced);
    StripTrailingKeepsAlnums(stripped);
    var cleaned := StripTrailing(stripped);
    assert Alnums(cleaned) == Alnums(lowered);
    if Alnums(lowered) == [] {
      OnlyDashesLeft(replaced);
      DashesStripToNothing(replaced);
    } else {
      assert cleaned != [];
    }
  }

  /** A string of allowed characters without letters or digits is all dashes. */
  lemma {:induction false} OnlyDashesLeft(s: string)
    requires AllAllowed(s) && Alnums(s) == []
    ensures forall i :: 0 <= i < |s| ==> s[i] == '-'
  {
    forall i | 0 <= i < |s| ensures s[i] == '-' {
      if s[i] != '-' {
        AlnumInAlnums(s, i);
      }
    }
  }

  /** Stripping leading dashes from a string of dashes leaves nothing. */
  lemma {:induction false} DashesStripToNothing(s: string)
    requires forall i :: 0 <= i < |s| ==> s[i] == '-'
    ensures StripLeading(s) == []
  {
    var r := StripLeading(s);
    assert |r| > 0 ==> r[0] == s[|s| - |r|];
  }

  lemma {:induction false} AlnumInAlnums(s: string, i: nat)
    requires i < |s| && IsAlnum(s[i])
    ensures Alnums(s) != []
  {
    if i > 0 {
      AlnumInAlnums(s[1..], i - 1);
    }
  }

  /** A well-formed slug is its own slug. */
  lemma SlugifyFixesSlugs(s: string)
    requires IsSlug(s)
    ensures Slugify(s) == s
  {
    assert Lower(s) == s;
    ReplaceRunsKeepsAllowed(s);
  }

  /** Slugifying twice is slugifying once. */
  lemma SlugifyIdempotent(value: string)
    ensures Slugify(Slugify(value)) == Slugify(value)
  {
    SlugifyFixesSlugs(Slugify(value));
  }

  /** The k-th name `unique_slug` tries: the base itself, then `base-k`. */
  function Candidate(base: string, k: nat): (s: string)
    ensures k == 0 ==> s == base
    ensures k > 0 ==> base + "-" <= s && |s| > |base| + 1
  {
    if k == 0 then base else base + "-" + NatToStr(k)
  }

  /** No two attempts of `unique_slug` produce the same name. */
  lemma CandidatesDistinct(base: string, j: nat, k: nat)
    requires j != k
    ensures Candidate(base, j) != Candidate(base, k)
  {
    if j > 0 && k > 0 && Candidate(base, j) == Candidate(base, k) {
      var n := |base| + 1;
      assert Candidate(base, j)[n..] == NatToStr(j);
      assert Candidate(base, k)[n..] == NatToStr(k);
      NatToStrInjective(j, k);
    }
  }

  /** The names of the first `n` attempts. */
  ghost function CandidatesBelow(base: string, n: nat): (names: set<string>)
    ensures forall j :: 0 <= j < n ==> Candidate(base, j) in names
  {
    if n == 0 then {} else CandidatesBelow(base, n - 1) + {Candidate(base, n - 1)}
  }

  /** A later attempt is not among the earlier ones. */
  lemma {:induction false} LaterCandidateIsNew(base: string, n: nat, k: nat)
    requires n <= k
    ensures Candidate(base, k) !in CandidatesBelow(base, n)
  {
    if n > 0 {
      LaterCandidateIsNew(base, n - 1, k);
      CandidatesDistinct(base, n - 1, k);
    }
  }

  /** `unique_slug`: the first candidate that is not taken. The loop always
      ends because the candidates are pairwise distinct and only finitely
      many names are taken. */
  method UniqueSlug(base: string, taken: set<string>) returns (slug: string)
    ensures slug !in taken
    ensures exists k: nat :: slug == Candidate(base, k) && forall j :: 0 <= j < k ==> Candidate(base, j) in taken
    ensures base !in taken ==> slug == base
    ensures base in taken ==>
              exists k :: 1 <= k && slug == Candidate(base, k) && forall j :: 0 <= j < k ==> Candidate(base, j) in taken
  {
    slug := base;
    var suffix: nat := 1;
    while slug in taken
      invariant suffix >= 1
      invariant slug == Candidate(base, suffix - 1)
      invariant CandidatesBelow(base, suffix - 1) <= taken
      decreases |taken - CandidatesBelow(base, suffix - 1)|
    {
      LaterCandidateIsNew(base, suffix - 1, suffix - 1);
      assert CandidatesBelow(base, suffix) == CandidatesBelow(base, suffix - 1) + {slug};
      assert taken - CandidatesBelow(base, suffix) < taken - CandidatesBelow(base, suffix - 1);
      slug := base + "-" + NatToStr(suffix);
      suffix := suffix + 1;
    }
    assert forall j :: 0 <= j < suffix - 1 ==> Candidate(base, j) in taken;
  }
}

=== FILE: Submission.dfy ===
/** The chat-submission route `submit_chat`: model lookup, prompt assembly,
    the quota pre-check, the provider call and the usage commit, in that
    order. The provider is an input (what it would answer for this request),
    and the route records what it did as a trace of events, so that the
    order of the steps can be stated. The whole request is one database
    transaction: an error raised at any step leaves the committed ledger as it
    was, including the zeroed row the pre-check may have flushed. */
module Submission {
  import opened Wrappers
  import opened Records
  import opened RateLimits

  /** Python's `sep.join(parts)`. */
  function Join(sep: string, parts: seq<string>): (r: string)
    ensures |parts| == 0 ==> r == ""
    ensures |parts| == 1 ==> r == parts[0]
    ensures |parts| >= 2 ==> parts[0] + sep <= r
  {
    if |parts| == 0 then ""
    else if |parts| == 1 then parts[0]
    else parts[0] + sep + Join(sep, parts[1..])
  }

  /** With a non-empty separator the joined text is empty exactly when there
      is nothing to join but at most one empty part. */
  lemma JoinEmptyIff(sep: string, parts: seq<string>)
    requires sep != ""
    ensures Join(sep, parts) == "" <==> |parts| == 0 || (|parts| == 1 && parts[0] == "")
  {
  }

  const SourcesSeparator: string := "\n\n"
  const SourcesHeader: string := "\n\nSOURCES:\n"

  /** The prompt sent to the provider: the user's prompt, followed by a
      sources header and the sources separated by blank lines when their
      joined text is not empty. */
  function CombinePrompt(prompt: string, sources: seq<string>): (r: string)
    ensures prompt <= r
    ensures r == prompt <==> Join(SourcesSeparator, sources) == ""
    ensures r != prompt ==> r == prompt + SourcesHeader + Join(SourcesSeparator, sources)
  {
    var sourcesText := Join(SourcesSeparator, sources);
    if sourcesText != "" then prompt + SourcesHeader + sourcesText else prompt
  }

  /** The prompt is sent unchanged exactly when the sources list is empty or
      holds one empty string; a list of two empty strings still appends the
      header and a blank line. */
  lemma PromptUnchangedIff(prompt: string, sources: seq<string>)
    ensures CombinePrompt(prompt, sources) == prompt <==> |sources| == 0 || (|sources| == 1 && sources[0] == "")
    ensures CombinePrompt(prompt, ["", ""]) == prompt + SourcesHeader + SourcesSeparator
  {
    JoinEmptyIff(SourcesSeparator, sources);
  }

  datatype SubmitRequest = SubmitRequest(modelId: int, prompt: string, sourcesList: seq<string>)

  /** What the provider answers: its text (possibly absent) and the token
      usage it reports, or a failure (network, authentication, provider-side
      quota). */
  datatype ProviderReply =
    | Completion(text: Option<string>, totalTokens: int, promptTokens: int, completionTokens: int)
    | ProviderFailure

  datatype SubmitResponse = SubmitResponse(modelId: int, responseText: string, promptTokens: int, completionTokens: int)

  datatype SubmitError = UnknownModel | QuotaExceeded(reason: QuotaError) | ProviderError

  /** The observable steps of a submission. */
  datatype Event =
    | QuotaChecked(passed: bool)
    | ProviderCalled(apiName: string, prompt: string)
    | UsageCommitted(tokens: int, messages: int)

  datatype Submitted = Submitted(ledger: Ledger, trace: seq<Event>, result: Result<SubmitResponse, SubmitError>)

  /** `submit_chat` for the authenticated `user`. The pre-check and the
      commit each read the date for themselves: `checkDay` is the day when
      the pre-check runs and `commitDay` the day when the provider has
      answered, which is the next day for a call that spans midnight. */
  function SubmitChat(ledger: Ledger, models: ModelRegistry, limits: Limits, user: UserId, checkDay: Day, commitDay: Day,
                      req: SubmitRequest, reply: ProviderReply): (r: Submitted)
    // an unknown model is rejected before the ledger or the provider is touched
    ensures r.result == Err(UnknownModel) <==> req.modelId !in models
    ensures req.modelId !in models ==> r.trace == [] && r.ledger == ledger
    // the provider is called only right after a passing pre-check, with the assembled prompt
    ensures forall i :: 0 <= i < |r.trace| && r.trace[i].ProviderCalled? ==>
              && 0 < i && r.trace[i - 1] == QuotaChecked(true)
              && req.modelId in models
              && r.trace[i] == ProviderCalled(models[req.modelId].apiName, CombinePrompt(req.prompt, req.sourcesList))
    // usage is committed only right after the provider answered, with its total
    ensures forall i :: 0 <= i < |r.trace| && r.trace[i].UsageCommitted? ==>
              && 0 < i && r.trace[i - 1].ProviderCalled?
              && reply.Completion? && r.trace[i] == UsageCommitted(reply.totalTokens, 1)
              && i == |r.trace| - 1
    // a pre-check that finds a counter above its limit stops the request
    ensures req.modelId in models && !WithinLimits(Observed(ledger, UsageKey(user, checkDay)), limits) ==>
              && r.trace == [QuotaChecked(false)] && r.ledger == ledger
              && r.result == Err(QuotaExceeded(CheckRateLimits(ledger, user, checkDay, limits).outcome.error))
    // any failure leaves the committed ledger unchanged
    ensures r.result.Err? ==> r.ledger == ledger
    ensures reply.ProviderFailure? ==> r.ledger == ledger
    // a provider failure after a passing pre-check is passed on as it is
    ensures req.modelId in models && WithinLimits(Observed(ledger, UsageKey(user, checkDay)), limits) && reply.ProviderFailure? ==>
              && r.result == Err(ProviderError)
              && r.trace == [QuotaChecked(true), ProviderCalled(models[req.modelId].apiName, CombinePrompt(req.prompt, req.sourcesList))]
    // success is exactly: known model, passing pre-check, provider answered
    ensures r.result.Ok? <==>
              req.modelId in models && WithinLimits(Observed(ledger, UsageKey(user, checkDay)), limits) && reply.Completion?
    ensures r.result.Ok? ==>
              && r.ledger == UpdateRateLimits(CheckRateLimits(ledger, user, checkDay, limits).ledger, user, commitDay, reply.totalTokens, 1)
              && (checkDay == commitDay ==> r.ledger == UpdateRateLimits(ledger, user, commitDay, reply.totalTokens, 1))
              && r.result.value.modelId == req.modelId
              && r.result.value.promptTokens == reply.promptTokens
              && r.result.value.completionTokens == reply.completionTokens
              && r.result.value.responseText == (if reply.text.Some? then reply.text.value else "")
  {
    if req.modelId !in models then
      Submitted(ledger, [], Err(UnknownModel))
    else
      var prompt := CombinePrompt(req.prompt, req.sourcesList);
      var checked := CheckRateLimits(ledger, user, checkDay, limits);
      if checked.outcome.Fail? then
        Submitted(ledger, [QuotaChecked(false)], Err(QuotaExceeded(checked.outcome.error)))
      else
        var called := [QuotaChecked(true), ProviderCalled(models[req.modelId].apiName, prompt)];
        match reply
        case ProviderFailure =>
          Submitted(ledger, called, Err(ProviderError))
        case Completion(text, total, promptTokens, completionTokens) =>
          UpdateAfterCheck(ledger, user, checkDay, limits, total, 1);
          var committed := UpdateRateLimits(checked.ledger, user, commitDay, total, 1);
          var responseText := if text.Some? then text.value else "";
          Submitted(committed, called + [UsageCommitted(total, 1)],
                     Ok(SubmitResponse(req.modelId, responseText, promptTokens, completionTokens)))
  }

  /** Number of provider calls recorded in a trace. */
  function ProviderCalls(trace: seq<Event>): (n: nat)
    ensures n <= |trace|
  {
    if trace == [] then 0
    else (if trace[0].ProviderCalled? then 1 else 0) + ProviderCalls(trace[1..])
  }

  /** Number of ledger commits recorded in a trace. */
  function Commits(trace: seq<Event>): (n: nat)
    ensures n <= |trace|
  {
    if trace == [] then 0
    else (if trace[0].UsageCommitted? then 1 else 0) + Commits(trace[1..])
  }

  /** A submission calls the provider at most once and commits at most once;
      it commits exactly when it succeeds, and it calls the provider exactly
      when the model is known and the pre-check passed. */
  lemma SubmissionCounts(ledger: Ledger, models: ModelRegistry, limits: Limits, user: UserId, today: Day,
                         req: SubmitRequest, reply: ProviderReply)
    ensures var r := SubmitChat(ledger, models, limits, user, today, today, req, reply);
            && (Commits(r.trace) == 1 <==> r.result.Ok?)
            && Commits(r.trace) <= 1
            && (ProviderCalls(r.trace) == 1 <==>
                  req.modelId in models && WithinLimits(Observed(ledger, UsageKey(user, today)), limits))
            && ProviderCalls(r.trace) <= 1
  {
    var r := SubmitChat(ledger, models, limits, user, today, today, req, reply);
    if req.modelId in models && WithinLimits(Observed(ledger, UsageKey(user, today)), limits) {
      var prompt := CombinePrompt(req.prompt, req.sourcesList);
      var called := [QuotaChecked(true), ProviderCalled(models[req.modelId].apiName, prompt)];
      assert called[1..][1..] == [];
      if reply.Completion? {
        var t := called + [UsageCommitted(reply.totalTokens, 1)];
        assert r.trace == t;
        assert t[1..] == [called[1], UsageCommitted(reply.totalTokens, 1)];
        assert t[1..][1..] == [UsageCommitted(reply.totalTokens, 1)];
        assert t[1..][1..][1..] == [];
        assert Commits(t[1..][1..]) == 1;
        assert Commits(t[1..]) == 1;
        assert ProviderCalls(t[1..][1..]) == 0;
        assert ProviderCalls(t[1..]) == 1;
      } else {
        assert r.trace == called;
      }
    } else if req.modelId in models {
      assert r.trace == [QuotaChecked(false)];
      assert r.trace[1..] == [];
    }
  }

  /** Two successful submissions one after the other on the same day add both
      token totals and two messages to the user's row. */
  lemma SuccessiveSubmissions(ledger: Ledger, models: ModelRegistry, limits: Limits, user: UserId, today: Day,
                              req1: SubmitRequest, reply1: ProviderReply, req2: SubmitRequest, reply2: ProviderReply)
    requires SubmitChat(ledger, models, limits, user, today, today, req1, reply1).result.Ok?
    requires SubmitChat(SubmitChat(ledger, models, limits, user, today, today, req1, reply1).ledger,
                        models, limits, user, today, today, req2, reply2).result.Ok?
    ensures var mid := SubmitChat(ledger, models, limits, user, today, today, req1, reply1).ledger;
            var last := SubmitChat(mid, models, limits, user, today, today, req2, reply2).ledger;
            var before := Observed(ledger, UsageKey(user, today));
            last[UsageKey(user, today)] ==
              Usage(before.tokens + reply1.totalTokens + reply2.totalTokens, before.numMessages + 2)
  {
    UpdatesAccumulate(ledger, user, today, reply1.totalTokens, 1, reply2.totalTokens, 1);
  }

  /** With limits of 100 tokens and 50 messages, a user at 95 tokens gets an
      answer that costs 10 tokens, ends at 105, and the next submission that
      day is rejected at the pre-check without calling the provider. */
  lemma QuotaScenario(ledger: Ledger, models: ModelRegistry, user: UserId, today: Day,
                      req1: SubmitRequest, req2: SubmitRequest, reply2: ProviderReply)
    requires req1.modelId in models && req2.modelId in models
    requires UsageKey(user, today) in ledger && ledger[UsageKey(user, today)] == Usage(95, 3)
    ensures var limits := Limits(100, 50);
            var first := SubmitChat(ledger, models, limits, user, today, today, req1, Completion(Some("ok"), 10, 4, 6));
            var second := SubmitChat(first.ledger, models, limits, user, today, today, req2, reply2);
            && first.result.Ok?
            && first.ledger[UsageKey(user, today)] == Usage(105, 4)
            && second.result == Err(QuotaExceeded(TokenLimitReached))
            && second.trace == [QuotaChecked(false)]
  {
  }

  /** A provider call that spans midnight: the pre-check of day D finds no row
      and passes, and its zeroed row for D is committed along with the charge,
      which lands on a fresh row for day D + 1. */
  lemma MidnightSubmission(ledger: Ledger, models: ModelRegistry, limits: Limits, user: UserId, day: Day,
                           req: SubmitRequest, reply: ProviderReply)
    requires req.modelId in models && reply.Completion?
    requires limits.dailyTokens >= 0 && limits.dailyMessages >= 0
    requires UsageKey(user, day) !in ledger && UsageKey(user, day + 1) !in ledger
    ensures var r := SubmitChat(ledger, models, limits, user, day, day + 1, req, reply);
            && r.result.Ok?
            && r.ledger == ledger[UsageKey(user, day) := ZeroUsage][UsageKey(user, day + 1) := Usage(reply.totalTokens, 1)]
  {
    var checked := ledger[UsageKey(user, day) := ZeroUsage];
    assert CheckRateLimits(ledger, user, day, limits).ledger == checked;
    var row := Usage(reply.totalTokens, 1);
    assert UpdateRateLimits(checked, user, day + 1, reply.totalTokens, 1) == checked[UsageKey(user, day + 1) := row];
  }
}

=== FILE: Verification.dfy ===
/** The e-mail verification token lifecycle: `generate_verification_code`,
    `save_verification_token` and the `verify_email` route. The token store is
    keyed by the code, which keeps codes unique; the random draws, the
    sequence of codes the generator yields for them, and the clock are inputs. Times are in seconds. */
module Verification {
  import opened Wrappers
  import opened Decimal
  import opened Records

  /** The code length the routes use. */
  const CodeLength: nat := 6

  /** How long a token lives unless the caller says otherwise: one day. */
  const DefaultExpiryMinutes: nat := 60 * 24

  /** `generate_verification_code`: the random draw `n`, which is below
      `10^length`, written in decimal and zero-padded to `length` digits. */
  function GenerateVerificationCode(n: nat, length: nat): (code: string)
    requires n < Pow10(length)
    ensures AllDigits(code)
    ensures length >= 1 ==> |code| == length
    ensures length == 0 ==> code == "0"
    ensures ParseDecimal(code) == n
  {
    assert length == 0 ==> n == 0 && NatToStr(n) == "0";
    NatToStrFits(n, if length == 0 then 1 else length);
    PadDecimalRoundTrip(n, length);
    PadDecimal(n, length)
  }

  /** Distinct draws give distinct codes. */
  lemma CodesDistinct(n: nat, m: nat, length: nat)
    requires n < Pow10(length) && m < Pow10(length)
    requires n != m
    ensures GenerateVerificationCode(n, length) != GenerateVerificationCode(m, length)
  {
  }

  /** The number of distinct six-digit codes. */
  const CodeSpace: nat := 1000000

  lemma CodeSpaceIsPow10()
    ensures Pow10(CodeLength) == CodeSpace
  {
    assert Pow10(2) == 100;
    assert Pow10(4) == 10000;
  }

  /** The code for one draw of the six-digit generator. */
  function CodeOf(n: nat): (code: string)
    requires n < CodeSpace
    ensures IsCode(code)
  {
    CodeSpaceIsPow10();
    GenerateVerificationCode(n, CodeLength)
  }

  /** A six-digit code. */
  predicate IsCode(s: string) {
    |s| == CodeLength && AllDigits(s)
  }

  /** The codes the generator yields: each one is six digits, as `CodeOf`
      makes every draw. */
  ghost predicate GeneratedCodes(codes: seq<string>) {
    forall i :: 0 <= i < |codes| ==> IsCode(codes[i])
  }

  /** Some candidate at or after position `from` is a code no token uses:
      the retry loop of `save_verification_token` ends on this sequence of
      generated codes. */
  ghost predicate SomeCodeFree(store: TokenStore, codes: seq<string>, from: nat) {
    exists i :: from <= i < |codes| && codes[i] !in store
  }

  /** The retry loop: the position of the first generated code, from `from`
      on, that is not in use. */
  function FirstFreeCode(store: TokenStore, codes: seq<string>, from: nat): (i: nat)
    requires SomeCodeFree(store, codes, from)
    ensures from <= i < |codes|
    ensures codes[i] !in store
    ensures forall j :: from <= j < i ==> codes[j] in store
    decreases |codes| - from
  {
    if codes[from] !in store then from
    else FirstFreeCode(store, codes, from + 1)
  }

  /** Marks every unused token of `user` as used. */
  function InvalidateUnused(store: TokenStore, user: UserId): (r: TokenStore)
    ensures r.Keys == store.Keys
    ensures forall t :: t in store ==>
              r[t] == store[t].(used := store[t].used || store[t].user == user)
  {
    map t | t in store :: if store[t].user == user then store[t].(used := true) else store[t]
  }

  datatype Issued = Issued(store: TokenStore, code: string)

  /** `save_verification_token`: invalidate the user's earlier unused tokens
      (which keeps the set of codes in use), take the generated codes
      `codes` in order until one is free, and store a new unused token under
      it that expires `expiresMinutes` after `now`. The generator's codes are
      six digits each (`CodeOf`), and so is the one issued. */
  function SaveVerificationToken(store: TokenStore, user: UserId, now: Instant, expiresMinutes: int,
                                 codes: seq<string>): (r: Issued)
    requires GeneratedCodes(codes) && SomeCodeFree(store, codes, 0)
    ensures r.code !in store
    ensures exists i :: 0 <= i < |codes| && r.code == codes[i] && forall j :: 0 <= j < i ==> codes[j] in store
    ensures IsCode(r.code)
    ensures r.store.Keys == store.Keys + {r.code}
    ensures r.store[r.code] == NewToken(user, now + 60 * expiresMinutes)
    ensures forall t :: t in store ==>
              r.store[t] == store[t].(used := store[t].used || store[t].user == user)
  {
    var invalidated := InvalidateUnused(store, user);
    var code := codes[FirstFreeCode(store, codes, 0)];
    var issued := invalidated[code := NewToken(user, now + 60 * expiresMinutes)];
    assert code !in invalidated;
    assert forall t :: t in store ==> issued[t] == invalidated[t];
    Issued(issued, code)
  }

  /** After a new code is issued it is the only unused token of its user. */
  lemma OnlyNewestCodeLive(store: TokenStore, user: UserId, now: Instant, expiresMinutes: int, codes: seq<string>)
    requires GeneratedCodes(codes) && SomeCodeFree(store, codes, 0)
    ensures var r := SaveVerificationToken(store, user, now, expiresMinutes, codes);
            forall t :: t in r.store && r.store[t].user == user && !r.store[t].used ==> t == r.code
  {
  }

  datatype VerifyError = InvalidCode | CodeExpired | UserNotFound

  datatype Accounts = Accounts(tokens: TokenStore, users: map<UserId, User>)

  /** `verify_email`: an unknown or used code is invalid; a code whose expiry
      lies strictly before `now` has expired; otherwise the token's user is
      marked verified and the token used. */
  function VerifyEmail(accounts: Accounts, code: string, now: Instant): (r: Result<Accounts, VerifyError>)
    ensures r == Err(InvalidCode) <==> code !in accounts.tokens || accounts.tokens[code].used
    ensures r == Err(CodeExpired) <==>
              code in accounts.tokens && !accounts.tokens[code].used && accounts.tokens[code].expiresAt < now
    ensures r == Err(UserNotFound) <==>
              && code in accounts.tokens && !accounts.tokens[code].used && now <= accounts.tokens[code].expiresAt
              && accounts.tokens[code].user !in accounts.users
    ensures r.Ok? ==>
              && code in accounts.tokens
              && var owner := accounts.tokens[code].user;
              && owner in accounts.users
              && r.value.tokens == accounts.tokens[code := accounts.tokens[code].(used := true)]
              && r.value.users == accounts.users[owner := accounts.users[owner].(verified := true)]
  {
    if code !in accounts.tokens || accounts.tokens[code].used then Err(InvalidCode)
    else
      var record := accounts.tokens[code];
      if record.expiresAt < now then Err(CodeExpired)
      else if record.user !in accounts.users then Err(UserNotFound)
      else
        var owner := accounts.users[record.user];
        Ok(Accounts(accounts.tokens[code := record.(used := true)],
                    accounts.users[record.user := owner.(verified := true)]))
  }

  /** A code verifies at most once. */
  lemma VerifyOnlyOnce(accounts: Accounts, code: string, now: Instant, later: Instant)
    requires VerifyEmail(accounts, code, now).Ok?
    ensures VerifyEmail(VerifyEmail(accounts, code, now).value, code, later) == Err(InvalidCode)
  {
  }

  /** A freshly issued code verifies its registered user until it expires,
      and is rejected as expired afterwards. */
  lemma IssuedCodeVerifies(accounts: Accounts, user: UserId, now: Instant, expiresMinutes: int, codes: seq<string>, at: Instant)
    requires GeneratedCodes(codes) && SomeCodeFree(accounts.tokens, codes, 0)
    requires user in accounts.users
    ensures var issued := SaveVerificationToken(accounts.tokens, user, now, expiresMinutes, codes);
            var r := VerifyEmail(Accounts(issued.store, accounts.users), issued.code, at);
            && (at <= now + 60 * expiresMinutes ==> r.Ok? && r.value.users[user].verified)
            && (at > now + 60 * expiresMinutes ==> r == Err(CodeExpired))
  {
  }

  /** Requesting a new code invalidates every earlier code of the same user. */
  lemma ReissueInvalidatesEarlierCodes(accounts: Accounts, user: UserId, now: Instant, expiresMinutes: int,
                                       codes: seq<string>, earlier: string, at: Instant)
    requires GeneratedCodes(codes) && SomeCodeFree(accounts.tokens, codes, 0)
    requires earlier in accounts.tokens && accounts.tokens[earlier].user == user
    ensures var issued := SaveVerificationToken(accounts.tokens, user, now, expiresMinutes, codes);
            VerifyEmail(Accounts(issued.store, accounts.users), earlier, at) == Err(InvalidCode)
  {
  }

  /** Issuing a code for one user leaves every other user's tokens as they were. */
  lemma ReissueIsolated(store: TokenStore, user: UserId, now: Instant, expiresMinutes: int, codes: seq<string>, t: string)
    requires GeneratedCodes(codes) && SomeCodeFree(store, codes, 0)
    requires t in store && store[t].user != user
    ensures SaveVerificationToken(store, user, now, expiresMinutes, codes).store[t] == store[t]
  {
  }

  /** With the default expiry a code issued at `now` verifies for one day,
      up to and including `now + 86400`, and has expired one second later. */
  lemma DefaultCodeLivesOneDay(accounts: Accounts, user: UserId, now: Instant, codes: seq<string>)
    requires GeneratedCodes(codes) && SomeCodeFree(accounts.tokens, codes, 0)
    requires user in accounts.users
    ensures var issued := SaveVerificationToken(accounts.tokens, user, now, DefaultExpiryMinutes, codes);
            var accounts' := Accounts(issued.store, accounts.users);
            && VerifyEmail(accounts', issued.code, now + 86400).Ok?
            && VerifyEmail(accounts', issued.code, now + 86401) == Err(CodeExpired)
  {
    IssuedCodeVerifies(accounts, user, now, DefaultExpiryMinutes, codes, now + 86400);
    IssuedCodeVerifies(accounts, user, now, DefaultExpiryMinutes, codes, now + 86401);
  }
}

=== FILE: Wrappers.dfy ===
/** Failure-carrying datatypes shared by the whole model: a route either
    produces its value or raises an error that the web layer turns into an
    HTTP status. */
module Wrappers {

  datatype Option<+T> = None | Some(value: T)

  datatype Result<+T, +E> = Ok(value: T) | Err(error: E)

  /** A check that either passes or fails with an error, carrying no value. */
  datatype Outcome<+E> = Pass | Fail(error: E)
}
